=== FILE: README.md ===
# Session entity lifecycle — a Dafny model

This project models the state logic under a dialogue client's UI. The client
turns each user utterance into a classified conversational turn. From the
gateway's structured reply it mints insight, origin and speculative-hypothesis
records, each with its own status. It threads confirmed hypotheses back into
later requests. It resolves hypotheses through a gated, one-shot action followed
by a recalibration round-trip. Once enough turns exist, it synthesises a profile
exactly once per mount of the profile view.

Everything is immutable datatypes and pure functions:

- `types.dfy` (`Types`): the enumerations and record shapes (`types.ts`), plus minting a pending record from a gateway draft.
- `seqs.dfy` (`Seqs`): the JavaScript built-ins the code leans on. These are `slice(-n)`, conditional `map`, `filter(...).length`, `join`, and `trim` with ECMAScript's whitespace set. It also holds a `Split` that inverts `join` on a one-character separator.
- `store.dfy` (`Store`): the handlers in `App.tsx`. These are prepend-newest-first, status update by id, hypothesis resolution with recalibration, and the pending badge counts.
- `app.dfy` (`App`): the session-wide state and stopping the session.
- `chat.dfy` (`Chat`): `handleSend` and `processResponse` in `ChatSession.tsx`. These are the send guard, the request context, decoding with defaults, gated minting, the fallback turn, and the loading flag.
- `hypothesis_view.dfy` (`HypothesisView`): which resolution actions a hypothesis offers.
- `profile.dfy` (`Profile`): the synthesis latch, the history and pattern text, and result and failure handling. The effect re-runs many times within one mount.

The reasoning gateway is an oracle parameter: a total function from the
request to an already-decoded outcome (`TurnOutcome`, `TextReply` or
`SynthesisReply`), each with a failure case. Ids and clock readings are
supplied by the caller. Each handler is one sequential step. Where the
source splits a handler around an `await`, the model has a first half and a
second half, plus a composite that runs both against the oracle:
`Chat.BeginTurn`, `Chat.FinishTurn` and `Chat.HandleSend` for a send;
`Profile.BeginSynthesis`, `Profile.FinishSynthesis` and
`Profile.GenerateTheories` for a synthesis run; and
`Store.UpdateSpeculationStatus` (the optimistic update before the call),
`Store.AttachPlan` (the plan after it) and `Store.ResolveSpeculation` for a
resolution.

### Behaviour worth noting (the model follows the code)

- One might expect a rejection not to recalibrate. The code sends the request anyway, for every id found in the list, `rejected_all` included (`App.tsx:45-58`). `Store.RejectionStillRecalibrates` states this.
- The recalibration request always carries `primaryHypothesis`, even when the competing side was confirmed (`App.tsx:53`).
- The synthesis latch is a `useRef` (`ProfileView.tsx:15`), and the view is mounted only while its tab is shown (`App.tsx:116`). So "at most once" holds per mount, not per session (`Profile.RemountIssuesAgain`).
- The synthesis effect re-runs when messages, insights or origins change (`ProfileView.tsx:73`), not only when turns are added.
- The in-flight guard `isLoading` is local state of the chat view (`ChatSession.tsx:55`), which is mounted only while the chat tab is shown (`App.tsx:90`). Leaving the tab during a request and coming back remounts the view idle, so a second turn can be sent while the first is still outstanding (`Chat.RemountAcceptsSecondSend`). "One turn in flight" holds only within one mount (`Chat.AtMostOneTurnInFlight`).
- A turn reply that lands after the session was stopped is still applied, classification included (`Chat.ReplyAfterStopStillApplies`).
- Nothing in the store stops a resolved hypothesis from being updated again. Only the view's pending gate makes resolution one-shot, and only when ids are unique (`HypothesisView.ResolvedStatusIsStable`, `HypothesisView.SharedIdOverwritesResolved`).
- On a synthesis failure the theories keep their previous value, which is empty on a fresh mount.

## Model

| member | source | states |
|---|---|---|
| Types.RoleName | types.ts:44 | the two roles have distinct wire names, `"user"` only for the user role, and no name holds a newline |
| Types.HypothesisStatusName | types.ts:37 | the wire name of a status, as interpolated into the recalibration prompt, reads back to that status: the four statuses have distinct names |
| Types.MintHypothesis | ChatSession.tsx:153-160 | a minted hypothesis carries every field of its payload unchanged, the fresh id and time, status `pending` and no adjustment plan |
| Types.MintInsight | ChatSession.tsx:162-164 | a minted insight carries every field of its payload unchanged, the fresh id and status `pending` |
| Types.MintOrigin | ChatSession.tsx:166-168 | a minted origin carries every field of its payload unchanged, the fresh id and status `pending` |
| Seqs.LastN | ChatSession.tsx:74 | `slice(-n)` keeps min(n, length) elements, the trailing ones, in order |
| Seqs.Update | App.tsx:34 | a conditional `map` keeps the length, replaces exactly the matching elements and leaves the rest equal |
| Seqs.Count | App.tsx:77-79 | `filter(p).length` is the number of positions satisfying `p`; it is zero exactly when none does |
| Seqs.CountCons | App.tsx:77-79 | a prepended element adds one to the count exactly when it satisfies the predicate |
| Seqs.UpdateNeverRaisesCount | App.tsx:77-79 | an update whose replacements never satisfy the predicate cannot raise the count |
| Seqs.UpdateKeepsCount | App.tsx:77-79 | an update that never changes whether the predicate holds keeps the count |
| Seqs.SplitJoin | ProfileView.tsx:27 | joining non-empty parts on a one-character separator none contains, then splitting, gives the parts back |
| Seqs.JoinCons | ProfileView.tsx:28 | joining with one more part in front adds that part and one separator |
| Seqs.TrimEmptyIffBlank | ChatSession.tsx:184 | `trim()` gives the empty string exactly when every character is ECMAScript whitespace or a line terminator |
| Store.AddInsight | App.tsx:21-23 | the new insight goes in front, earlier insights keep their order, and the pending badge grows by one exactly when the new one is pending |
| Store.AddOrigin | App.tsx:25-27 | the new origin goes in front, earlier origins keep their order, and the pending badge grows by one exactly when the new one is pending |
| Store.AddSpeculation | App.tsx:29-31 | the new hypothesis goes in front, earlier ones keep their order, and the pending badge grows by one exactly when the new one is pending |
| Store.PendingInsights | App.tsx:77 | the insight badge is the number of insights whose status is `pending` |
| Store.PendingOrigins | App.tsx:78 | the origin badge is the number of origins whose status is `pending` |
| Store.PendingSpeculations | App.tsx:79 | the hypothesis badge is the number of hypotheses whose status is `pending` |
| Store.UpdateInsightStatus | App.tsx:33-35 | length, order, ids and every non-status field are kept; exactly the insights with the id take the new status |
| Store.UpdateOriginStatus | App.tsx:37-39 | length, order, ids and every non-status field are kept; exactly the origins with the id take the new status |
| Store.UpdateSpeculationStatus | App.tsx:43 | the optimistic update: hypotheses with the id differ from before only in status, all others are identical |
| Store.UnknownIdLeavesInsights | App.tsx:33-35 | an id naming no insight leaves the list identical |
| Store.UnknownIdLeavesOrigins | App.tsx:37-39 | an id naming no origin leaves the list identical |
| Store.InsightStatusOverwritable | App.tsx:33-35 | with no pending precondition, a second insight update simply overwrites the first |
| Store.OriginStatusOverwritable | App.tsx:37-39 | with no pending precondition, a second origin update simply overwrites the first |
| Store.ResolvingInsightNeverRaisesBadge | App.tsx:77 | agreeing or disagreeing with an insight never raises the insight badge |
| Store.ResolvingOriginNeverRaisesBadge | App.tsx:78 | confirming or rejecting an origin never raises the origin badge |
| Store.ResolvingSpeculationNeverRaisesBadge | App.tsx:79 | resolving a hypothesis to a terminal status never raises its badge, whatever the recalibration returns |
| Store.ResolvingInsightLowersBadge | App.tsx:77 | resolving the one pending insight that has a given id lowers the badge by exactly one |
| Store.FindSpeculation | App.tsx:45-46 | the lookup fails exactly when no hypothesis has the id, and otherwise returns the first one that has it |
| Store.PlanText | App.tsx:60 | the plan is the reply text when present and non-empty, and "Modeling adapted." otherwise |
| Store.RecalibrationFor | App.tsx:52-57 | the recalibration request carries the primary text even when the competing side was confirmed, the new status by a wire name it can be read back from, and the grounding signals joined by ", " |
| Store.RecalibrationDistinguishesStatus | App.tsx:52-57 | resolutions of one hypothesis to different statuses send different requests, while both confirmed sides send the same hypothesis text |
| Store.AttachPlan | App.tsx:61 | hypotheses with the id gain the plan with status untouched; all others are identical |
| Store.ResolveSpeculation | App.tsx:41-65 | every matching record differs from before only in its new status and, on success, the attached plan (unchanged on failure); other records are identical; a request is issued exactly when the id is in the list, and it is the recalibration request for the first record with that id, looked up before the update |
| Store.FailedRecalibrationKeepsStatus | App.tsx:62-64 | a failed recalibration leaves exactly the optimistic status update, never rolled back |
| Store.UnknownIdResolutionIsNoop | App.tsx:43-46 | resolving an unknown id changes nothing and issues no request |
| Store.RejectionStillRecalibrates | App.tsx:45-61 | rejecting a known hypothesis still issues a recalibration and still attaches the returned plan |
| App.StopSession | App.tsx:67-70 | stopping clears the active flag and keeps every collection and the last classification |
| Chat.ConfirmedLines | ChatSession.tsx:70-72 | the memo lines are the confirmed hypotheses filtered out of the list, in list order, each mapped to its line; there are as many as there are confirmed hypotheses |
| Chat.ConfirmedLineAppears | ChatSession.tsx:70-72 | every confirmed hypothesis has its line in the memo |
| Chat.UnconfirmedHypothesisLeavesMemo | ChatSession.tsx:70-72 | a hypothesis that is pending or rejected on both sides contributes nothing to the memo |
| Chat.ConfirmedHypothesisHeadsMemo | ChatSession.tsx:70-72 | a confirmed hypothesis contributes its line in list position, naming the primary or the competing text according to the side confirmed |
| Chat.MemoText | ChatSession.tsx:80 | the memo starts with the fixed header, is the bare header exactly when nothing is confirmed, and after the header splits back into the confirmed lines when none contains a newline |
| Chat.Context | ChatSession.tsx:74-83 | the request is the memo, then the last min(15, n) turns of the pre-send transcript in order, then the new text: 2 + min(15, n) parts |
| Chat.FirstTurnContext | ChatSession.tsx:79-83 | with no history and nothing confirmed, the request is the bare memo header and the new text |
| Chat.ReplyMessage | ChatSession.tsx:142-148 | the model turn carries the reply, or "Tracing latent variables..." when it is missing or empty, and the classification, or TRIVIAL when missing |
| Chat.FallbackMessage | ChatSession.tsx:172-177 | a failed call yields a model turn with the fixed text "Sync interrupted. Returning to baseline inquiry." and no classification |
| Chat.ModelTurn | ChatSession.tsx:142-177 | every reply yields one model-role turn with the fresh id and time: on failure the fallback text with no classification, otherwise the decoded turn; it carries a classification exactly when the reply was decoded |
| Chat.SpeculationsAfter | ChatSession.tsx:153-160 | a hypothesis is minted exactly when its flag is set and its payload present: pending, with the payload's fields, the fresh id, the reply's clock reading as its time and no plan, in front of the unchanged list |
| Chat.InsightsAfter | ChatSession.tsx:162-164 | an insight is minted exactly when its flag is set and its payload present: pending, with the payload's fields, in front of the unchanged list |
| Chat.OriginsAfter | ChatSession.tsx:166-168 | an origin is minted exactly when its flag is set and its payload present: pending, with the payload's fields, in front of the unchanged list |
| Chat.BeginTurn | ChatSession.tsx:183-189 | a send is dropped exactly for blank input, while loading, or with the session inactive; otherwise the raw input is appended as one user turn, the input cleared, loading set, and the request built from the pre-append transcript |
| Chat.FinishTurn | ChatSession.tsx:140-180 | loading is cleared on both paths; a failure appends only the fixed fallback turn with no classification and mints nothing; a decoded reply appends its model turn, records a present classification and mints the gated records |
| Chat.HandleSend | ChatSession.tsx:183-189 | a whole send either changes nothing, or appends exactly the user turn with the raw input and then one model turn, leaving the composer cleared and idle; an accepted send ends exactly as the reply to the request built from the pre-append transcript is processed, so every other field follows that reply |
| Chat.AtMostOneTurnInFlight | ChatSession.tsx:184 | within one mount of the chat view, while a turn is in flight every further send is dropped |
| Chat.RemountAcceptsSecondSend | ChatSession.tsx:54-55 | a remounted chat view starts idle, so a second turn is accepted while the first is still in flight |
| Chat.FirstSendOfSession | ChatSession.tsx:183-189 | the first send of a new session requests only the bare memo header and the text, and leaves the user turn then the model turn as the transcript |
| Chat.StoppedSessionDropsSends | ChatSession.tsx:184 | after the session is stopped a send has no effect at all |
| Chat.ReplyAfterStopStillApplies | ChatSession.tsx:150-151 | a reply arriving after the stop still appends its model turn and records its classification |
| Chat.EmptyResponseYieldsPlaceholder | ChatSession.tsx:140-148 | an empty response text yields the placeholder turn tagged TRIVIAL, no records, and no change to the last classification |
| HypothesisView.Actions | HypothesisView.tsx:56-109 | a hypothesis offers actions exactly while pending; all three terminal targets are offered then; every action targets its own id and a terminal status |
| HypothesisView.PageActions | HypothesisView.tsx:28-109 | the page offers exactly the actions of its hypotheses |
| HypothesisView.ResolutionIsOneShot | HypothesisView.tsx:56-58 | after any offered button runs the full resolution handler, whatever the recalibration returns, no record with that id offers an action again |
| HypothesisView.OfferedIdIsPending | HypothesisView.tsx:56-58 | with unique ids, an offered action never names a hypothesis that is already resolved |
| HypothesisView.ResolvedStatusIsStable | HypothesisView.tsx:102-104 | with unique ids, no offered button, running the full resolution handler, changes a hypothesis that is already resolved, plan included |
| HypothesisView.SharedIdOverwritesResolved | App.tsx:43 | with a shared id, an action offered by a pending hypothesis overwrites a resolved one's status |
| Profile.HistoryLines | ProfileView.tsx:27 | one `role: content` line for each of the last min(20, n) turns, in order |
| Profile.HistoryText | ProfileView.tsx:27 | the history text is empty exactly when there are no turns, and when no turn contains a newline it splits back into exactly the history lines |
| Profile.PatternContext | ProfileView.tsx:28 | the pattern context is empty for no insights and otherwise starts with the newest insight's pattern, followed by "; " when there are more |
| Profile.NewestPatternLeads | ProfileView.tsx:28 | the newest insight's pattern leads the pattern context, followed by "; " and the earlier context |
| Profile.BeginSynthesis | ProfileView.tsx:19-28 | idle, with loading cleared, exactly when the latch is set or there are fewer than 5 turns; otherwise the latch is set before the request, which carries the pattern and history text |
| Profile.FinishSynthesis | ProfileView.tsx:63-69 | theories are replaced on success, by none for an empty text, and kept on failure; loading ends; the latch is untouched |
| Profile.GenerateTheories | ProfileView.tsx:18-70 | one effect run issues a request exactly when the latch was clear and there are at least 5 turns; afterwards the latch is set in that case; loading ends false; when a request is issued it carries the pattern and history text, and the state after it is the gateway's reply applied to the latched state |
| Profile.RunEffects | ProfileView.tsx:17-73 | over any number of re-runs in one mount at most one request is issued, none once the latch is set, and theories change only through that request |
| Profile.IdleBelowThreshold | ProfileView.tsx:19-22 | with fewer than 5 turns a fresh view settles idle with no theories and no request |
| Profile.FailureConsumesLatch | ProfileView.tsx:24-69 | a failed request still sets the latch: theories stay empty and no later run of that mount issues a request |
| Profile.RemountIssuesAgain | ProfileView.tsx:15 | the latch belongs to the mount: a fresh mount issues one more request |

## Left out

- The gateway itself: model calls, prompt strings and the behavioural policy text. These are a foreign, nondeterministic service, modelled as oracle parameters. The recalibration and synthesis prompts appear only as the fields they interpolate.
- JSON parsing and the response schemas. Replies are modelled already decoded, with optional fields and absent flags read as false. The source casts `classification` to the enum without checking it, so a value outside the four is not modelled. Parse errors fall into the failure case.
- Clock-derived ids and timestamps, including the `spec-`, `insight-` and `origin-` prefixes. The caller supplies them, and the source does not guarantee they are unique.
- Async interleaving and React state batching, including the stale `speculations` snapshot read at `App.tsx:45`. Each handler is one sequential step.
- Camera and microphone capture with simulated cues, which is I/O and randomness, and every presentational component.
- Tab navigation, including the switch to the profile tab in `handleStopSession`. The remounts it causes are described by `Profile.RemountIssuesAgain` and `Chat.RemountAcceptsSecondSend`. A remount is modelled as a fresh view state, not as a navigation step.
- Chat.AtMostOneTurnInFlight: holds only within one mount of the chat view. `isLoading` is reset when the view is remounted, so across a tab switch a second turn can be in flight (`Chat.RemountAcceptsSecondSend`).
- `confidence` values are carried as `real` and only copied. Percentage rendering is not modelled.
- Error logging to the console.
- Profile.FinishSynthesis: takes the theories as the gateway returns them. The source neither checks that there are three nor checks their shape.
- Seqs.SplitJoin: holds only for one-character separators. The `"; "` separator of the pattern context is described through `Seqs.JoinCons` instead.

=== FILE: app.dfy ===
/** The session-wide state the top-level component owns and hands down to
    the chat, hypothesis and profile views. */
module App {
  import opened Types

  datatype AppState = AppState(
    messages: seq<Message>,
    insights: seq<Insight>,
    origins: seq<Origin>,
    speculations: seq<Hypothesis>,
    sessionActive: bool,
    lastClassification: Option<Classification>)

  /** A new session: every collection empty, the session active. */
  const Initial: AppState := AppState([], [], [], [], true, None)

  /** Stopping the session only clears the active flag; every collection and
      the last classification are kept. */
  function StopSession(a: AppState): (r: AppState)
    ensures !r.sessionActive
    ensures r.messages == a.messages && r.insights == a.insights && r.origins == a.origins
    ensures r.speculations == a.speculations && r.lastClassification == a.lastClassification
  {
    a.(sessionActive := false)
  }
}

=== FILE: chat.dfy ===
/** The turn processor: the send guard, the request context built from the
    transcript and the confirmed hypotheses, the decoding of the gateway's
    structured reply, the minting of pending records, and the fallback turn
    when the gateway fails. */
module Chat {
  import opened Types
  import opened Seqs
  import opened Store
  import opened App

  /** How many earlier turns go into the request. */
  const HistoryWindow: nat := 15

  const MemoHeader: string := "System Memo: Active Cognitive Architecture Confirmed by User:\n"
  const ConfirmedPrefix: string := "Confirmed Structure: "

  /** The model turn's text when the reply is missing or empty. */
  const PlaceholderReply: string := "Tracing latent variables..."

  /** The model turn's text when the gateway call or its decoding fails. */
  const FallbackReply: string := "Sync interrupted. Returning to baseline inquiry."

  /** The composer's local state: the text being typed and whether a turn is
      in flight. */
  datatype ChatUi = ChatUi(input: string, loading: bool)

  /** The composer of a freshly mounted chat view: empty input, not loading.
      This state is local to the view, which is mounted only while the chat
      tab is shown, so leaving the tab and coming back resets it. */
  const MountedUi: ChatUi := ChatUi("", false)

  // ---------------------------------------------------------------------
  // Request context

  /** One role-tagged entry of the request. */
  datatype Part = Part(role: Role, text: string)

  function PartOf(m: Message): Part {
    Part(m.role, m.content)
  }

  predicate IsConfirmedHypothesis(h: Hypothesis) {
    IsConfirmed(h.status)
  }

  /** The memo line of a confirmed hypothesis names the side that was confirmed. */
  function MemoLine(h: Hypothesis): string {
    ConfirmedPrefix + (if h.status == ConfirmedPrimary then h.primaryHypothesis else h.competingHypothesis)
  }

  /** The memo lines of the given hypotheses, one each, in order (`map`). */
  function MemoLines(hs: seq<Hypothesis>): seq<string> {
    seq(|hs|, k requires 0 <= k < |hs| => MemoLine(hs[k]))
  }

  lemma MemoLinesCons(h: Hypothesis, hs: seq<Hypothesis>)
    ensures MemoLines([h] + hs) == [MemoLine(h)] + MemoLines(hs)
  {
    assert forall k :: 1 <= k < |hs| + 1 ==> ([h] + hs)[k] == hs[k - 1];
  }

  /** One memo line per confirmed hypothesis, in list order; pending and
      rejected hypotheses contribute nothing. The result is the confirmed
      hypotheses filtered out of the list and then mapped to their lines. */
  function ConfirmedLines(specs: seq<Hypothesis>): (r: seq<string>)
    ensures r == MemoLines(Filter(specs, IsConfirmedHypothesis))
    ensures |r| == Count(specs, IsConfirmedHypothesis)
    decreases |specs|
  {
    if specs == [] then []
    else
      var rest := ConfirmedLines(specs[1..]);
      CountCons(specs[0], specs[1..], IsConfirmedHypothesis);
      assert [specs[0]] + specs[1..] == specs;
      if IsConfirmed(specs[0].status) then
        MemoLinesCons(specs[0], Filter(specs[1..], IsConfirmedHypothesis));
        [MemoLine(specs[0])] + rest
      else
        rest
  }

  /** Every confirmed hypothesis has its line in the memo. */
  lemma ConfirmedLineAppears(specs: seq<Hypothesis>, j: nat)
    requires j < |specs| && IsConfirmed(specs[j].status)
    ensures MemoLine(specs[j]) in ConfirmedLines(specs)
  {
    var confirmed := Filter(specs, IsConfirmedHypothesis);
    assert specs[j] in confirmed;
    var k :| 0 <= k < |confirmed| && confirmed[k] == specs[j];
    assert MemoLines(confirmed)[k] == MemoLine(specs[j]);
  }

  /** The memo: a fixed header, then the confirmed lines joined by newlines.
      It is the bare header exactly when nothing is confirmed, and when no
      line contains a newline, the part after the header splits back into
      the confirmed lines. */
  function MemoText(specs: seq<Hypothesis>): (r: string)
    ensures MemoHeader <= r
    ensures r == MemoHeader <==> Count(specs, IsConfirmedHypothesis) == 0
    ensures Count(specs, IsConfirmedHypothesis) > 0 && (forall k :: 0 <= k < |specs| ==> '\n' !in MemoLine(specs[k])) ==>
              Split(r[|MemoHeader|..], '\n') == ConfirmedLines(specs)
  {
    var body := Join(ConfirmedLines(specs), "\n");
    ConfirmedLinesJoinEmpty(specs);
    ConfirmedLinesSplitBack(specs);
    assert (MemoHeader + body)[|MemoHeader|..] == body;
    MemoHeader + body
  }

  /** The joined memo lines are empty exactly when nothing is confirmed,
      since every line starts with the non-empty confirmed prefix. */
  lemma ConfirmedLinesJoinEmpty(specs: seq<Hypothesis>)
    ensures Join(ConfirmedLines(specs), "\n") == "" <==> Count(specs, IsConfirmedHypothesis) == 0
  {
    var lines := ConfirmedLines(specs);
    JoinStartsWithFirst(lines, "\n");
    if |lines| > 0 {
      assert lines[0] == MemoLines(Filter(specs, IsConfirmedHypothesis))[0];
      assert |lines[0]| >= |ConfirmedPrefix|;
    }
  }

  /** When no memo line contains a newline, the joined memo lines split back
      into exactly those lines. */
  lemma ConfirmedLinesSplitBack(specs: seq<Hypothesis>)
    ensures Count(specs, IsConfirmedHypothesis) > 0 && (forall k :: 0 <= k < |specs| ==> '\n' !in MemoLine(specs[k])) ==>
              Split(Join(ConfirmedLines(specs), "\n"), '\n') == ConfirmedLines(specs)
  {
    if Count(specs, IsConfirmedHypothesis) > 0 && forall k :: 0 <= k < |specs| ==> '\n' !in MemoLine(specs[k]) {
      ConfirmedLinesNewlineFree(specs);
      SplitJoin(ConfirmedLines(specs), '\n');
    }
  }

  /** No memo line contains a newline when no hypothesis's line does. */
  lemma ConfirmedLinesNewlineFree(specs: seq<Hypothesis>)
    requires forall k :: 0 <= k < |specs| ==> '\n' !in MemoLine(specs[k])
    ensures forall j :: 0 <= j < |ConfirmedLines(specs)| ==> '\n' !in ConfirmedLines(specs)[j]
  {
    var confirmed := Filter(specs, IsConfirmedHypothesis);
    forall j | 0 <= j < |ConfirmedLines(specs)| ensures '\n' !in ConfirmedLines(specs)[j] {
      assert ConfirmedLines(specs)[j] == MemoLine(confirmed[j]);
      assert confirmed[j] in specs;
      var i :| 0 <= i < |specs| && specs[i] == confirmed[j];
    }
  }

  /** The request: the memo, the last fifteen turns of the transcript as it
      was before the new turn was appended, then the new text. */
  function Context(messages: seq<Message>, specs: seq<Hypothesis>, text: string): (r: seq<Part>)
    ensures |r| == 2 + Min(HistoryWindow, |messages|)
    ensures r[0] == Part(User, MemoText(specs))
    ensures r[|r| - 1] == Part(User, text)
    ensures forall k :: 1 <= k < |r| - 1 ==> r[k] == PartOf(messages[|messages| - (|r| - 2) + (k - 1)])
  {
    var recent := LastN(messages, HistoryWindow);
    [Part(User, MemoText(specs))] + seq(|recent|, k requires 0 <= k < |recent| => PartOf(recent[k])) + [Part(User, text)]
  }

  // ---------------------------------------------------------------------
  // Gateway reply

  /** The decoded turn-processing reply; every field may be absent, and an
      absent flag reads as false. */
  datatype TurnReply = TurnReply(
    classification: Option<Classification>,
    reply: Option<string>,
    hasSpeculation: bool,
    speculation: Option<HypothesisDraft>,
    hasInsight: bool,
    insight: Option<InsightDraft>,
    hasOrigin: bool,
    origin: Option<OriginDraft>)

  /** What an empty response text decodes to (the empty object). */
  const EmptyReply: TurnReply := TurnReply(None, None, false, None, false, None, false, None)

  datatype TurnOutcome = TurnFailed | TurnDecoded(data: TurnReply)

  /** Caller-supplied fresh ids and clock reading for what one reply creates. */
  datatype Minted = Minted(messageId: Id, speculationId: Id, insightId: Id, originId: Id, now: int)

  /** A payload is used only when its flag is set and it is present. */
  function Gate<T>(flag: bool, payload: Option<T>): Option<T> {
    if flag then payload else None
  }

  /** The model turn for a decoded reply: the reply text, or the placeholder
      when it is missing or empty; the classification, or TRIVIAL when missing. */
  function ReplyMessage(d: TurnReply, id: Id, now: int): (m: Message)
    ensures m.role == Model && m.id == id && m.timestamp == now
    ensures d.reply.Some? && d.reply.value != "" ==> m.content == d.reply.value
    ensures d.reply.None? || d.reply.value == "" ==> m.content == PlaceholderReply
    ensures m.classification.Some?
    ensures d.classification.Some? ==> m.classification == d.classification
    ensures d.classification.None? ==> m.classification == Some(Trivial)
  {
    var content := match d.reply
      case Some(t) => if t != "" then t else PlaceholderReply
      case None => PlaceholderReply;
    var c := match d.classification
      case Some(c) => c
      case None => Trivial;
    Message(id, Model, content, Some(c), now)
  }

  /** The model turn for a failed call: the fixed fallback text and no
      classification. */
  function FallbackMessage(id: Id, now: int): (m: Message)
    ensures m.role == Model && m.id == id && m.timestamp == now
    ensures m.content == FallbackReply && m.classification.None?
  {
    Message(id, Model, FallbackReply, None, now)
  }

  /** The one model turn a reply produces, whichever way the call went: on a
      failure the fallback text with no classification, otherwise the decoded
      turn, which always carries a classification. */
  function ModelTurn(outcome: TurnOutcome, m: Minted): (t: Message)
    ensures t.role == Model && t.id == m.messageId && t.timestamp == m.now
    ensures outcome.TurnFailed? ==> t.content == FallbackReply && t.classification.None?
    ensures outcome.TurnDecoded? ==> t == ReplyMessage(outcome.data, m.messageId, m.now)
    ensures t.classification.Some? <==> outcome.TurnDecoded?
  {
    match outcome
    case TurnFailed => FallbackMessage(m.messageId, m.now)
    case TurnDecoded(d) => ReplyMessage(d, m.messageId, m.now)
  }

  // ---------------------------------------------------------------------
  // One turn

  datatype SendStep = Dropped | Started(app: AppState, ui: ChatUi, request: seq<Part>)

  datatype ChatStep = ChatStep(app: AppState, ui: ChatUi)

  /** The synchronous half of a send: dropped for blank input, while a turn is
      in flight or once the session is stopped; otherwise the raw input is
      appended as a user turn, the input is cleared, loading is set, and the
      request is built from the transcript as it was before the append. */
  function BeginTurn(a: AppState, ui: ChatUi, id: Id, now: int): (r: SendStep)
    ensures r.Dropped? <==> IsBlank(ui.input) || ui.loading || !a.sessionActive
    ensures r.Started? ==>
              && r.app == a.(messages := a.messages + [Message(id, User, ui.input, None, now)])
              && r.ui == ChatUi("", true)
              && r.request == Context(a.messages, a.speculations, ui.input)
  {
    TrimEmptyIffBlank(ui.input);
    if Trim(ui.input) == "" || ui.loading || !a.sessionActive then Dropped
    else
      Started(a.(messages := a.messages + [Message(id, User, ui.input, None, now)]),
              ChatUi("", true),
              Context(a.messages, a.speculations, ui.input))
  }

  /** The asynchronous half: exactly one model turn is appended and loading
      is cleared on both paths. A decoded reply also records its
      classification and mints one pending record per payload whose flag is
      set and which is present; a failure mints nothing. The session flag is
      not consulted: a reply that lands after the session stopped still applies. */
  function FinishTurn(a: AppState, ui: ChatUi, outcome: TurnOutcome, m: Minted): (r: ChatStep)
    ensures r.ui == ui.(loading := false)
    ensures r.app.sessionActive == a.sessionActive
    ensures r.app.messages == a.messages + [ModelTurn(outcome, m)]
    ensures outcome.TurnFailed? ==>
              && r.app.insights == a.insights && r.app.origins == a.origins
              && r.app.speculations == a.speculations
              && r.app.lastClassification == a.lastClassification
    ensures outcome.TurnDecoded? ==>
              && r.app.lastClassification ==
                   (if outcome.data.classification.Some? then outcome.data.classification else a.lastClassification)
              && r.app.speculations == SpeculationsAfter(a.speculations, outcome.data, m)
              && r.app.insights == InsightsAfter(a.insights, outcome.data, m)
              && r.app.origins == OriginsAfter(a.origins, outcome.data, m)
  {
    match outcome
    case TurnFailed =>
      ChatStep(a.(messages := a.messages + [FallbackMessage(m.messageId, m.now)]), ui.(loading := false))
    case TurnDecoded(d) =>
      var last := if d.classification.Some? then d.classification else a.lastClassification;
      ChatStep(AppState(a.messages + [ReplyMessage(d, m.messageId, m.now)],
                        InsightsAfter(a.insights, d, m), OriginsAfter(a.origins, d, m),
                        SpeculationsAfter(a.speculations, d, m),
                        a.sessionActive, last),
               ui.(loading := false))
  }

  /** The speculations after a decoded reply: one pending hypothesis in front
      when the flag is set and the payload present, otherwise as before. */
  function SpeculationsAfter(specs: seq<Hypothesis>, d: TurnReply, m: Minted): (r: seq<Hypothesis>)
    ensures |r| == |specs| + (if d.hasSpeculation && d.speculation.Some? then 1 else 0)
    ensures r[|r| - |specs|..] == specs
    ensures d.hasSpeculation && d.speculation.Some? ==>
              && r[0].id == m.speculationId && r[0].status == HypothesisPending && r[0].adjustmentPlan.None?
              && r[0].timestamp == m.now
              && HypothesisDraftOf(r[0]) == d.speculation.value
  {
    match Gate(d.hasSpeculation, d.speculation)
    case Some(p) => AddSpeculation(specs, MintHypothesis(p, m.speculationId, m.now))
    case None => specs
  }

  function InsightsAfter(insights: seq<Insight>, d: TurnReply, m: Minted): (r: seq<Insight>)
    ensures |r| == |insights| + (if d.hasInsight && d.insight.Some? then 1 else 0)
    ensures r[|r| - |insights|..] == insights
    ensures d.hasInsight && d.insight.Some? ==>
              r[0].id == m.insightId && r[0].status == InsightPending && InsightDraftOf(r[0]) == d.insight.value
  {
    match Gate(d.hasInsight, d.insight)
    case Some(p) => AddInsight(insights, MintInsight(p, m.insightId))
    case None => insights
  }

  function OriginsAfter(origins: seq<Origin>, d: TurnReply, m: Minted): (r: seq<Origin>)
    ensures |r| == |origins| + (if d.hasOrigin && d.origin.Some? then 1 else 0)
    ensures r[|r| - |origins|..] == origins
    ensures d.hasOrigin && d.origin.Some? ==>
              r[0].id == m.originId && r[0].status == OriginPending && OriginDraftOf(r[0]) == d.origin.value
  {
    match Gate(d.hasOrigin, d.origin)
    case Some(p) => AddOrigin(origins, MintOrigin(p, m.originId))
    case None => origins
  }

  /** A whole send against a gateway oracle: either nothing at all happens,
      or exactly one user turn carrying the raw input and then exactly one
      model turn are appended, and the composer ends cleared and idle. */
  function HandleSend(a: AppState, ui: ChatUi, id: Id, now: int, m: Minted,
                      gateway: seq<Part> -> TurnOutcome): (r: ChatStep)
    ensures IsBlank(ui.input) || ui.loading || !a.sessionActive ==> r == ChatStep(a, ui)
    ensures !(IsBlank(ui.input) || ui.loading || !a.sessionActive) ==>
              && |r.app.messages| == |a.messages| + 2
              && r.app.messages[..|a.messages| + 1] == a.messages + [Message(id, User, ui.input, None, now)]
              && r.app.messages[|a.messages| + 1].role == Model
              && r.ui == ChatUi("", false)
              && r == FinishTurn(a.(messages := a.messages + [Message(id, User, ui.input, None, now)]),
                                 ChatUi("", true), gateway(Context(a.messages, a.speculations, ui.input)), m)
  {
    match BeginTurn(a, ui, id, now)
    case Dropped => ChatStep(a, ui)
    case Started(a', ui', request) =>
      var r := FinishTurn(a', ui', gateway(request), m);
      assert r.app.messages == a'.messages + [ModelTurn(gateway(request), m)];
      r
  }

  // ---------------------------------------------------------------------
  // Properties across steps

  /** While a turn is in flight every further send is dropped. */
  lemma AtMostOneTurnInFlight(a: AppState, ui: ChatUi, id: Id, now: int, ui2: string, id2: Id, now2: int)
    requires BeginTurn(a, ui, id, now).Started?
    ensures var s := BeginTurn(a, ui, id, now);
            BeginTurn(s.app, s.ui.(input := ui2), id2, now2).Dropped?
  {
  }

  /** The in-flight guard is local to one mount of the chat view: after a
      remount the composer is idle again, so a second turn is accepted while
      the first one's reply is still outstanding. */
  lemma RemountAcceptsSecondSend(a: AppState, ui: ChatUi, id: Id, now: int, text: string, id2: Id, now2: int)
    requires BeginTurn(a, ui, id, now).Started?
    requires !IsBlank(text)
    ensures var s := BeginTurn(a, ui, id, now);
            && s.ui.loading
            && BeginTurn(s.app, MountedUi.(input := text), id2, now2).Started?
  {
  }

  /** Once the session is stopped no send has any effect. */
  lemma StoppedSessionDropsSends(a: AppState, ui: ChatUi, id: Id, now: int, m: Minted,
                                 gateway: seq<Part> -> TurnOutcome)
    ensures HandleSend(StopSession(a), ui, id, now, m, gateway) == ChatStep(StopSession(a), ui)
  {
  }

  /** A reply that arrives after the session was stopped is still applied:
      the model turn is appended and its classification recorded. */
  lemma ReplyAfterStopStillApplies(a: AppState, ui: ChatUi, id: Id, now: int, d: TurnReply, m: Minted)
    requires BeginTurn(a, ui, id, now).Started?
    requires d.classification.Some?
    ensures var s := BeginTurn(a, ui, id, now);
            var r := FinishTurn(StopSession(s.app), s.ui, TurnDecoded(d), m);
            && !r.app.sessionActive
            && r.app.messages == a.messages + [Message(id, User, ui.input, None, now), ReplyMessage(d, m.messageId, m.now)]
            && r.app.lastClassification == d.classification
  {
    var s := BeginTurn(a, ui, id, now);
    var r := FinishTurn(StopSession(s.app), s.ui, TurnDecoded(d), m);
    assert r.app.messages == s.app.messages + [ReplyMessage(d, m.messageId, m.now)];
  }

  /** An empty response text yields the placeholder turn tagged TRIVIAL, mints
      nothing, and leaves the last classification alone. */
  lemma EmptyResponseYieldsPlaceholder(a: AppState, ui: ChatUi, m: Minted)
    ensures var r := FinishTurn(a, ui, TurnDecoded(EmptyReply), m);
            && r.app.messages == a.messages + [Message(m.messageId, Model, PlaceholderReply, Some(Trivial), m.now)]
            && r.app.insights == a.insights && r.app.origins == a.origins && r.app.speculations == a.speculations
            && r.app.lastClassification == a.lastClassification
  {
  }

  /** Prepending a hypothesis that is not confirmed, whether pending (as every
      freshly minted one is) or rejected on both sides, leaves the memo as it was. */
  lemma {:induction false} UnconfirmedHypothesisLeavesMemo(specs: seq<Hypothesis>, h: Hypothesis)
    requires !IsConfirmed(h.status)
    ensures ConfirmedLines(AddSpeculation(specs, h)) == ConfirmedLines(specs)
  {
    assert AddSpeculation(specs, h)[1..] == specs;
  }

  /** A memo line is added in front for a confirmed hypothesis, and the side
      it names is the one that was confirmed. */
  lemma {:induction false} ConfirmedHypothesisHeadsMemo(specs: seq<Hypothesis>, h: Hypothesis)
    requires IsConfirmed(h.status)
    ensures ConfirmedLines(AddSpeculation(specs, h)) == [MemoLine(h)] + ConfirmedLines(specs)
    ensures h.status == ConfirmedPrimary ==> MemoLine(h) == ConfirmedPrefix + h.primaryHypothesis
    ensures h.status == ConfirmedCompeting ==> MemoLine(h) == ConfirmedPrefix + h.competingHypothesis
  {
    assert AddSpeculation(specs, h)[1..] == specs;
  }

  /** The first turn of a session with nothing confirmed sends only the empty
      memo and the new text. */
  lemma FirstTurnContext(text: string)
    ensures Context([], [], text) == [Part(User, MemoHeader), Part(User, text)]
  {
    assert ConfirmedLines([]) == [];
    assert MemoHeader + "" == MemoHeader;
  }

  /** The first send of a new session from a fresh composer: the transcript
      becomes the user turn and then the model turn for a request made of the
      bare memo header and the text. */
  lemma FirstSendOfSession(text: string, id: Id, now: int, m: Minted, gateway: seq<Part> -> TurnOutcome)
    requires !IsBlank(text)
    ensures BeginTurn(Initial, MountedUi.(input := text), id, now).request == [Part(User, MemoHeader), Part(User, text)]
    ensures HandleSend(Initial, MountedUi.(input := text), id, now, m, gateway).app.messages ==
              [Message(id, User, text, None, now), ModelTurn(gateway([Part(User, MemoHeader), Part(User, text)]), m)]
  {
    FirstTurnContext(text);
  }
}

=== FILE: hypothesis_view.dfy ===
/** The resolution controls of the hypothesis view. A hypothesis offers its
    three resolution actions only while it is pending; this gate is what
    makes a resolution one-shot, since the store itself accepts any update. */
module HypothesisView {
  import opened Types
  import opened Store

  /** A button press: resolve the hypothesis with this id to this status. */
  datatype Action = Action(id: Id, target: HypothesisStatus)

  /** The actions one displayed hypothesis offers: confirm primary, confirm
      competing and reject both while pending, none otherwise. */
  function Actions(h: Hypothesis): (r: seq<Action>)
    ensures |r| > 0 <==> h.status == HypothesisPending
    ensures forall k :: 0 <= k < |r| ==> r[k].id == h.id && IsTerminal(r[k].target)
    ensures h.status == HypothesisPending ==> forall t :: IsTerminal(t) ==> Action(h.id, t) in r
  {
    if h.status == HypothesisPending then
      [Action(h.id, ConfirmedPrimary), Action(h.id, ConfirmedCompeting), Action(h.id, RejectedAll)]
    else []
  }

  /** Every action on the page, hypothesis by hypothesis. */
  function PageActions(specs: seq<Hypothesis>): (r: seq<Action>)
    ensures forall a :: a in r ==> exists k :: 0 <= k < |specs| && a in Actions(specs[k])
    ensures forall k, a :: 0 <= k < |specs| && a in Actions(specs[k]) ==> a in r
    decreases |specs|
  {
    if specs == [] then []
    else
      var rest := PageActions(specs[1..]);
      assert forall k :: 1 <= k < |specs| ==> specs[k] == specs[1..][k - 1];
      Actions(specs[0]) + rest
  }

  /** Pressing any offered button runs the whole resolution handler; whatever
      the recalibration returns, every record with that id ends terminal, so
      none of them offers an action any more. */
  lemma ResolutionIsOneShot(specs: seq<Hypothesis>, a: Action, gateway: RecalibrationRequest -> TextReply)
    requires a in PageActions(specs)
    ensures var r := ResolveSpeculation(specs, a.id, a.target, gateway).speculations;
            forall k :: 0 <= k < |r| && r[k].id == a.id ==> Actions(r[k]) == []
  {
    var k0 :| 0 <= k0 < |specs| && a in Actions(specs[k0]);
    assert IsTerminal(a.target);
  }

  /** With unique ids, an offered action never names a resolved hypothesis:
      only a pending one offers it, and no other record shares that id. */
  lemma OfferedIdIsPending(specs: seq<Hypothesis>, a: Action)
    requires UniqueSpeculationIds(specs)
    requires a in PageActions(specs)
    ensures forall k :: 0 <= k < |specs| && IsTerminal(specs[k].status) ==> specs[k].id != a.id
  {
    var k0 :| 0 <= k0 < |specs| && a in Actions(specs[k0]);
    assert specs[k0].status == HypothesisPending && a.id == specs[k0].id;
    forall k | 0 <= k < |specs| && IsTerminal(specs[k].status)
      ensures specs[k].id != a.id
    {
      assert k != k0;
      if k < k0 {
        assert specs[k].id != specs[k0].id;
      } else {
        assert specs[k0].id != specs[k].id;
      }
    }
  }

  /** With unique ids, no offered button can change a hypothesis that is
      already resolved, whatever the recalibration returns: the record, plan
      included, stays exactly as it was. */
  lemma ResolvedStatusIsStable(specs: seq<Hypothesis>, a: Action, gateway: RecalibrationRequest -> TextReply)
    requires UniqueSpeculationIds(specs)
    requires a in PageActions(specs)
    ensures var r := ResolveSpeculation(specs, a.id, a.target, gateway).speculations;
            forall k :: 0 <= k < |specs| && IsTerminal(specs[k].status) ==> r[k] == specs[k]
  {
    OfferedIdIsPending(specs, a);
  }

  /** Without unique ids the gate is not enough: a pending hypothesis that
      shares its id with a resolved one can overwrite the resolved one's status. */
  lemma SharedIdOverwritesResolved(p: Hypothesis, q: Hypothesis)
    requires p.status == HypothesisPending && q.status == ConfirmedPrimary && p.id == q.id
    ensures var a := Action(p.id, RejectedAll);
            && a in PageActions([p, q])
            && UpdateSpeculationStatus([p, q], a.id, a.target)[1].status == RejectedAll
  {
    assert Actions(p)[2] == Action(p.id, RejectedAll);
  }
}

=== FILE: profile.dfy ===
/** The profile synthesizer: a one-shot latch that, once the transcript holds
    at least five turns, issues a single synthesis request built from the
    last twenty turns and the insight patterns, and keeps the theories it
    returns. The latch lives as long as the profile view is mounted. */
module Profile {
  import opened Types
  import opened Seqs
  import opened Store

  /** Fewer turns than this and the synthesizer stays idle. */
  const Threshold: nat := 5

  /** How many recent turns go into the synthesis request. */
  const HistoryWindow: nat := 20

  const PatternSeparator: string := "; "

  /** The one-shot guard, set before the request is issued. */
  datatype Latch = NotAttempted | Attempted

  datatype ProfileTheory = ProfileTheory(theory: string, competing: string, logic: string, shockEvidence: seq<string>)

  datatype ProfileState = ProfileState(latch: Latch, theories: seq<ProfileTheory>, loading: bool)

  /** The state of a freshly mounted view: latch clear, no theories, loading. */
  const Mounted: ProfileState := ProfileState(NotAttempted, [], true)

  datatype SynthesisRequest = SynthesisRequest(patterns: string, history: string)

  /** The gateway's answer in synthesis mode: a failure, an empty text (read
      as no theories), or the parsed theories, used as they come. */
  datatype SynthesisReply = SynthesisFailed | SynthesisEmpty | SynthesisParsed(theories: seq<ProfileTheory>)

  // ---------------------------------------------------------------------
  // Request content

  function HistoryLine(m: Message): string {
    RoleName(m.role) + ": " + m.content
  }

  /** One `role: content` line per turn of the last twenty, oldest first. */
  function HistoryLines(messages: seq<Message>): (r: seq<string>)
    ensures |r| == Min(HistoryWindow, |messages|)
    ensures forall k :: 0 <= k < |r| ==> r[k] == HistoryLine(messages[|messages| - |r| + k])
  {
    var recent := LastN(messages, HistoryWindow);
    seq(|recent|, k requires 0 <= k < |recent| => HistoryLine(recent[k]))
  }

  /** The history lines joined by newlines. When no turn contains a newline,
      the text splits back into exactly its lines: one per recent turn, in
      order. */
  function HistoryText(messages: seq<Message>): (r: string)
    ensures r == "" <==> messages == []
    ensures messages != [] && (forall k :: 0 <= k < |messages| ==> '\n' !in messages[k].content) ==>
              Split(r, '\n') == HistoryLines(messages)
  {
    HistoryLinesJoinEmpty(messages);
    HistoryLinesSplitBack(messages);
    Join(HistoryLines(messages), "\n")
  }

  /** The joined history is empty exactly when there are no turns, since
      every line starts with a non-empty role name. */
  lemma HistoryLinesJoinEmpty(messages: seq<Message>)
    ensures Join(HistoryLines(messages), "\n") == "" <==> messages == []
  {
    var lines := HistoryLines(messages);
    JoinStartsWithFirst(lines, "\n");
    if messages != [] {
      assert lines[0] == RoleName(messages[|messages| - |lines|].role) + ": " + messages[|messages| - |lines|].content;
    }
  }

  /** When no turn contains a newline, the joined history splits back into
      exactly its lines. */
  lemma HistoryLinesSplitBack(messages: seq<Message>)
    ensures messages != [] && (forall k :: 0 <= k < |messages| ==> '\n' !in messages[k].content) ==>
              Split(Join(HistoryLines(messages), "\n"), '\n') == HistoryLines(messages)
  {
    if messages != [] && forall k :: 0 <= k < |messages| ==> '\n' !in messages[k].content {
      HistoryLinesNewlineFree(messages);
      SplitJoin(HistoryLines(messages), '\n');
    }
  }

  /** The insight patterns in list order (newest first), joined by "; ": the
      newest pattern comes first, followed by the separator when there are
      more. */
  function PatternContext(insights: seq<Insight>): (r: string)
    ensures insights == [] ==> r == ""
    ensures |insights| > 0 ==> insights[0].pattern <= r
    ensures |insights| > 1 ==> insights[0].pattern + PatternSeparator <= r
  {
    var patterns := seq(|insights|, k requires 0 <= k < |insights| => insights[k].pattern);
    JoinStartsWithFirst(patterns, PatternSeparator);
    Join(patterns, PatternSeparator)
  }

  /** No history line contains a newline when no turn does. */
  lemma HistoryLinesNewlineFree(messages: seq<Message>)
    requires forall k :: 0 <= k < |messages| ==> '\n' !in messages[k].content
    ensures forall k :: 0 <= k < |HistoryLines(messages)| ==> '\n' !in HistoryLines(messages)[k]
  {
    var lines := HistoryLines(messages);
    forall k | 0 <= k < |lines| ensures '\n' !in lines[k] {
      var m := messages[|messages| - |lines| + k];
      assert lines[k] == RoleName(m.role) + ": " + m.content;
    }
  }

  /** The newest insight's pattern leads the pattern context. */
  lemma NewestPatternLeads(insights: seq<Insight>, x: Insight)
    ensures insights == [] ==> PatternContext(AddInsight(insights, x)) == x.pattern
    ensures insights != [] ==>
              PatternContext(AddInsight(insights, x)) == x.pattern + PatternSeparator + PatternContext(insights)
  {
    var xs := AddInsight(insights, x);
    var all := seq(|xs|, k requires 0 <= k < |xs| => xs[k].pattern);
    var rest := seq(|insights|, k requires 0 <= k < |insights| => insights[k].pattern);
    assert all == [x.pattern] + rest;
    if insights != [] {
      JoinCons(x.pattern, rest, PatternSeparator);
    }
  }

  // ---------------------------------------------------------------------
  // The latch

  datatype Trigger = Idle(state: ProfileState) | Requested(state: ProfileState, request: SynthesisRequest)

  /** One run of the effect, up to the request: idle when the latch is set or
      there are fewer than five turns (loading cleared); otherwise the latch
      is set first and the request is built. */
  function BeginSynthesis(st: ProfileState, messages: seq<Message>, insights: seq<Insight>): (r: Trigger)
    ensures r.Idle? <==> st.latch == Attempted || |messages| < Threshold
    ensures r.Idle? ==> r.state == st.(loading := false)
    ensures r.Requested? ==>
              && r.state == st.(latch := Attempted)
              && r.request == SynthesisRequest(PatternContext(insights), HistoryText(messages))
  {
    if st.latch == Attempted || |messages| < Threshold then Idle(st.(loading := false))
    else Requested(st.(latch := Attempted), SynthesisRequest(PatternContext(insights), HistoryText(messages)))
  }

  /** The rest of the run: theories are replaced on success (by none for an
      empty text) and kept on failure; loading ends either way. */
  function FinishSynthesis(st: ProfileState, reply: SynthesisReply): (r: ProfileState)
    ensures r.latch == st.latch && !r.loading
    ensures reply.SynthesisFailed? ==> r.theories == st.theories
    ensures reply.SynthesisEmpty? ==> r.theories == []
    ensures reply.SynthesisParsed? ==> r.theories == reply.theories
  {
    match reply
    case SynthesisFailed => st.(loading := false)
    case SynthesisEmpty => st.(theories := [], loading := false)
    case SynthesisParsed(ts) => st.(theories := ts, loading := false)
  }

  /** The state after some effect runs and how many requests they issued. */
  datatype Run = Run(state: ProfileState, requests: nat)

  /** One whole effect run against a gateway oracle. */
  function GenerateTheories(st: ProfileState, messages: seq<Message>, insights: seq<Insight>,
                            gateway: SynthesisRequest -> SynthesisReply): (r: Run)
    ensures !r.state.loading
    ensures r.requests == 1 <==> st.latch == NotAttempted && |messages| >= Threshold
    ensures r.requests <= 1
    ensures r.state.latch == Attempted <==> st.latch == Attempted || |messages| >= Threshold
    ensures r.requests == 0 ==> r.state.theories == st.theories
    ensures r.requests == 1 ==>
              r.state == FinishSynthesis(st.(latch := Attempted),
                                         gateway(SynthesisRequest(PatternContext(insights), HistoryText(messages))))
  {
    match BeginSynthesis(st, messages, insights)
    case Idle(s) => Run(s, 0)
    case Requested(s, request) => Run(FinishSynthesis(s, gateway(request)), 1)
  }

  /** What the view sees between two changes of its inputs. */
  datatype Snapshot = Snapshot(messages: seq<Message>, insights: seq<Insight>)

  /** The effect re-runs on every change of its inputs while the view stays
      mounted; the latch carries over from run to run. At most one request
      is issued over the whole mount, none once the latch is set, and
      theories change only through that request. */
  function RunEffects(st: ProfileState, snapshots: seq<Snapshot>,
                      gateway: SynthesisRequest -> SynthesisReply): (r: Run)
    ensures r.requests <= (if st.latch == NotAttempted then 1 else 0)
    ensures st.latch == Attempted ==> r.state.latch == Attempted
    ensures r.requests == 0 ==> r.state.theories == st.theories
    ensures snapshots != [] ==> !r.state.loading
    decreases |snapshots|
  {
    if snapshots == [] then Run(st, 0)
    else
      var first := GenerateTheories(st, snapshots[0].messages, snapshots[0].insights, gateway);
      var rest := RunEffects(first.state, snapshots[1..], gateway);
      Run(rest.state, first.requests + rest.requests)
  }

  /** With fewer than five turns the view settles idle with no theories. */
  lemma IdleBelowThreshold(messages: seq<Message>, insights: seq<Insight>,
                           gateway: SynthesisRequest -> SynthesisReply)
    requires |messages| < Threshold
    ensures GenerateTheories(Mounted, messages, insights, gateway) == Run(ProfileState(NotAttempted, [], false), 0)
  {
  }

  /** A failed request still consumes the latch: theories stay empty and no
      later run of the same mount issues another request. */
  lemma FailureConsumesLatch(messages: seq<Message>, insights: seq<Insight>, later: seq<Snapshot>,
                             gateway: SynthesisRequest -> SynthesisReply)
    requires |messages| >= Threshold
    requires gateway(SynthesisRequest(PatternContext(insights), HistoryText(messages))) == SynthesisFailed
    ensures var first := GenerateTheories(Mounted, messages, insights, gateway);
            && first == Run(ProfileState(Attempted, [], false), 1)
            && RunEffects(first.state, later, gateway).requests == 0
            && RunEffects(first.state, later, gateway).state.theories == []
  {
  }

  /** The latch belongs to the mount, not the session: the view is mounted
      only while its tab is shown, so every remount starts with a clear latch
      and can issue one more request. */
  lemma RemountIssuesAgain(s: Snapshot, gateway: SynthesisRequest -> SynthesisReply)
    requires |s.messages| >= Threshold
    ensures var first := RunEffects(Mounted, [s, s], gateway);
            && first.requests == 1
            && first.state.latch == Attempted
            && RunEffects(Mounted, [s], gateway).requests == 1
  {
    assert [s, s][1..] == [s];
  }
}

=== FILE: seqs.dfy ===
/** Sequence and string operations the session relies on, written to match
    the JavaScript array and string built-ins the UI calls: `slice(-n)`,
    `map` under a condition, `filter(...).length`, `join`, and `trim`. */
module Seqs {

  function Min(a: nat, b: nat): nat {
    if a <= b then a else b
  }

  /** The last `n` elements, or all of them when there are fewer
      (`slice(-n)` for positive `n`). */
  function LastN<T>(s: seq<T>, n: nat): (r: seq<T>)
    requires 0 < n
    ensures |r| == Min(n, |s|)
    ensures forall k :: 0 <= k < |r| ==> r[k] == s[|s| - |r| + k]
  {
    if |s| <= n then s else s[|s| - n..]
  }

  /** Element-wise replacement: elements satisfying `hit` become `f` of
      themselves, all others are kept (`map(x => hit(x) ? f(x) : x)`). */
  function Update<T>(s: seq<T>, hit: T -> bool, f: T -> T): (r: seq<T>)
    ensures |r| == |s|
    ensures forall k :: 0 <= k < |s| ==> r[k] == if hit(s[k]) then f(s[k]) else s[k]
    decreases |s|
  {
    if s == [] then [] else [if hit(s[0]) then f(s[0]) else s[0]] + Update(s[1..], hit, f)
  }

  /** The elements satisfying `p`, in their original order. */
  function Filter<T>(s: seq<T>, p: T -> bool): (r: seq<T>)
    ensures |r| <= |s|
    ensures forall k :: 0 <= k < |r| ==> r[k] in s && p(r[k])
    ensures forall k :: 0 <= k < |s| && p(s[k]) ==> s[k] in r
    decreases |s|
  {
    if s == [] then []
    else if p(s[0]) then [s[0]] + Filter(s[1..], p)
    else Filter(s[1..], p)
  }

  /** The positions whose element satisfies `p`. */
  function Indices<T>(s: seq<T>, p: T -> bool): set<nat> {
    set k: nat | k < |s| && p(s[k])
  }

  /** How many elements satisfy `p` (`filter(p).length`). */
  function Count<T>(s: seq<T>, p: T -> bool): (n: nat)
    ensures n == |Indices(s, p)|
    ensures n <= |s|
    ensures n == 0 <==> forall k :: 0 <= k < |s| ==> !p(s[k])
    ensures n == |s| <==> forall k :: 0 <= k < |s| ==> p(s[k])
  {
    CountAllOrNone(s, p);
    FilterSizeIsIndexCount(s, p);
    |Filter(s, p)|
  }

  function Shift(xs: set<nat>): set<nat> {
    set k | k in xs :: k + 1
  }

  lemma {:induction false} ShiftKeepsSize(xs: set<nat>)
    ensures |Shift(xs)| == |xs|
    decreases xs
  {
    if xs != {} {
      var y :| y in xs;
      ShiftKeepsSize(xs - {y});
      assert Shift(xs) == Shift(xs - {y}) + {y + 1} by {
        forall k | k in Shift(xs) ensures k in Shift(xs - {y}) + {y + 1} {
          var j :| j in xs && k == j + 1;
          if j != y {
            assert j in xs - {y};
          }
        }
      }
      assert y + 1 !in Shift(xs - {y});
    }
  }

  /** The satisfying positions of a non-empty sequence: possibly 0, then the
      tail's positions shifted by one. */
  lemma IndicesCons<T>(s: seq<T>, p: T -> bool)
    requires s != []
    ensures Indices(s, p) == (if p(s[0]) then {0} else {}) + Shift(Indices(s[1..], p))
  {
    var tail := Indices(s[1..], p);
    var head: set<nat> := if p(s[0]) then {0} else {};
    forall k: nat | k < |s| && p(s[k]) ensures k in head + Shift(tail) {
      if k > 0 {
        assert s[1..][k - 1] == s[k];
        assert k - 1 in tail;
      }
    }
    forall k | k in Shift(tail) ensures k in Indices(s, p) {
      var j :| j in tail && k == j + 1;
      assert s[1..][j] == s[k];
    }
  }

  lemma {:induction false} FilterSizeIsIndexCount<T>(s: seq<T>, p: T -> bool)
    ensures |Filter(s, p)| == |Indices(s, p)|
    decreases |s|
  {
    if s != [] {
      FilterSizeIsIndexCount(s[1..], p);
      var tail := Indices(s[1..], p);
      var head: set<nat> := if p(s[0]) then {0} else {};
      IndicesCons(s, p);
      ShiftKeepsSize(tail);
      assert 0 !in Shift(tail);
      assert |head + Shift(tail)| == |head| + |tail|;
      assert |Filter(s, p)| == |head| + |Filter(s[1..], p)|;
    }
  }

  lemma {:induction false} CountAllOrNone<T>(s: seq<T>, p: T -> bool)
    ensures |Filter(s, p)| == 0 <==> forall k :: 0 <= k < |s| ==> !p(s[k])
    ensures |Filter(s, p)| == |s| <==> forall k :: 0 <= k < |s| ==> p(s[k])
    decreases |s|
  {
    if s != [] {
      CountAllOrNone(s[1..], p);
      assert forall k :: 1 <= k < |s| ==> s[k] == s[1..][k - 1];
    }
  }

  /** Counting over a prepended element. */
  lemma CountCons<T>(x: T, s: seq<T>, p: T -> bool)
    ensures Count([x] + s, p) == Count(s, p) + (if p(x) then 1 else 0)
  {
    assert ([x] + s)[1..] == s;
  }

  /** An element-wise update whose replacements never satisfy `p` cannot
      raise the number of elements satisfying `p`. */
  lemma {:induction false} UpdateNeverRaisesCount<T>(s: seq<T>, hit: T -> bool, f: T -> T, p: T -> bool)
    requires forall x :: hit(x) ==> !p(f(x))
    ensures Count(Update(s, hit, f), p) <= Count(s, p)
    decreases |s|
  {
    if s != [] {
      var r := Update(s, hit, f);
      var tail := Update(s[1..], hit, f);
      assert r == [r[0]] + tail;
      assert s == [s[0]] + s[1..];
      CountCons(r[0], tail, p);
      CountCons(s[0], s[1..], p);
      UpdateNeverRaisesCount(s[1..], hit, f, p);
    }
  }

  /** An element-wise update that never changes whether `p` holds keeps the
      number of elements satisfying `p`. */
  lemma {:induction false} UpdateKeepsCount<T>(s: seq<T>, hit: T -> bool, f: T -> T, p: T -> bool)
    requires forall x :: hit(x) ==> p(f(x)) == p(x)
    ensures Count(Update(s, hit, f), p) == Count(s, p)
    decreases |s|
  {
    if s != [] {
      var r := Update(s, hit, f);
      var tail := Update(s[1..], hit, f);
      assert r == [r[0]] + tail;
      assert s == [s[0]] + s[1..];
      CountCons(r[0], tail, p);
      CountCons(s[0], s[1..], p);
      UpdateKeepsCount(s[1..], hit, f, p);
    }
  }

  /** Concatenation with a separator between consecutive parts (`join(sep)`):
      no parts give the empty string, one part is itself. */
  function Join(parts: seq<string>, sep: string): (r: string)
    decreases |parts|
  {
    if |parts| == 0 then ""
    else if |parts| == 1 then parts[0]
    else parts[0] + sep + Join(parts[1..], sep)
  }

  /** Cutting a string at every occurrence of `c`; the inverse of joining
      on `[c]` when no part contains `c` (see `SplitJoin`). */
  function Split(s: string, c: char): (r: seq<string>)
    ensures |r| >= 1
    ensures forall k :: 0 <= k < |r| ==> c !in r[k]
    decreases |s|
  {
    if s == [] then [""]
    else
      var rest := Split(s[1..], c);
      if s[0] == c then [""] + rest
      else [[s[0]] + rest[0]] + rest[1..]
  }

  lemma {:induction false} SplitNoSeparator(a: string, c: char)
    requires c !in a
    ensures Split(a, c) == [a]
    decreases |a|
  {
    if a != [] {
      SplitNoSeparator(a[1..], c);
      assert [a[0]] + a[1..] == a;
    }
  }

  lemma {:induction false} SplitAtFirst(a: string, c: char, b: string)
    requires c !in a
    ensures Split(a + [c] + b, c) == [a] + Split(b, c)
    decreases |a|
  {
    var s := a + [c] + b;
    if a == [] {
      assert s[0] == c && s[1..] == b;
    } else {
      assert s[0] == a[0];
      assert s[1..] == a[1..] + [c] + b;
      SplitAtFirst(a[1..], c, b);
      assert [a[0]] + a[1..] == a;
    }
  }

  /** Joining on a one-character separator and splitting on it again gives
      back the parts, provided there is at least one part and none contains
      the separator. */
  lemma {:induction false} SplitJoin(parts: seq<string>, c: char)
    requires |parts| > 0
    requires forall k :: 0 <= k < |parts| ==> c !in parts[k]
    ensures Split(Join(parts, [c]), c) == parts
    decreases |parts|
  {
    if |parts| == 1 {
      SplitNoSeparator(parts[0], c);
    } else {
      SplitJoin(parts[1..], c);
      SplitAtFirst(parts[0], c, Join(parts[1..], [c]));
      assert [parts[0]] + parts[1..] == parts;
    }
  }

  /** Joining with one more part in front adds that part and one separator. */
  lemma JoinCons(x: string, parts: seq<string>, sep: string)
    requires |parts| > 0
    ensures Join([x] + parts, sep) == x + sep + Join(parts, sep)
  {
    assert ([x] + parts)[1..] == parts;
  }

  /** A join starts with its first part, followed by the separator when
      there are more parts. */
  lemma JoinStartsWithFirst(parts: seq<string>, sep: string)
    ensures |parts| > 0 ==> parts[0] <= Join(parts, sep)
    ensures |parts| > 1 ==> parts[0] + sep <= Join(parts, sep)
  {
    if |parts| > 1 {
      assert Join(parts, sep) == (parts[0] + sep) + Join(parts[1..], sep);
    }
  }

  /** The characters `String.prototype.trim` strips: ECMAScript's WhiteSpace
      (tab, vertical tab, form feed, no-break space, byte-order mark and every
      Unicode space separator) and LineTerminator (LF, CR, LS, PS). */
  predicate IsWhitespace(c: char) {
    || c == '\t' || c == '\U{B}' || c == '\U{C}' || c == ' ' || c == '\U{A0}' || c == '\U{FEFF}'
    || c == '\U{1680}' || ('\U{2000}' <= c <= '\U{200A}') || c == '\U{202F}' || c == '\U{205F}'
    || c == '\U{3000}'
    || c == '\n' || c == '\r' || c == '\U{2028}' || c == '\U{2029}'
  }

  predicate IsBlank(s: string) {
    forall k :: 0 <= k < |s| ==> IsWhitespace(s[k])
  }

  function TrimStart(s: string): (r: string)
    ensures |r| <= |s|
    ensures r == s[|s| - |r|..]
    ensures r != [] ==> !IsWhitespace(r[0])
    ensures IsBlank(s[..|s| - |r|])
    decreases |s|
  {
    if s != [] && IsWhitespace(s[0]) then
      var t := s[1..];
      var r := TrimStart(t);
      assert r == s[|s| - |r|..];
      assert s[..|s| - |r|] == [s[0]] + t[..|t| - |r|];
      r
    else s
  }

  function TrimEnd(s: string): (r: string)
    ensures |r| <= |s|
    ensures r == s[..|r|]
    ensures r != [] ==> !IsWhitespace(r[|r| - 1])
    ensures IsBlank(s[|r|..])
    decreases |s|
  {
    if s != [] && IsWhitespace(s[|s| - 1]) then
      var t := s[..|s| - 1];
      var r := TrimEnd(t);
      assert r == s[..|r|];
      assert s[|r|..] == t[|r|..] + [s[|s| - 1]];
      r
    else s
  }

  /** Leading and trailing whitespace removed (`trim()`). */
  function Trim(s: string): (r: string)
  {
    TrimEnd(TrimStart(s))
  }

  /** The trimmed text is empty exactly when every character is whitespace:
      the send guard's `!input.trim()` rejects precisely the blank inputs. */
  lemma TrimEmptyIffBlank(s: string)
    ensures Trim(s) == "" <==> IsBlank(s)
  {
    var t := TrimStart(s);
    var d := |s| - |t|;
    if Trim(s) == "" {
      assert IsBlank(t[0..]);
      forall k | 0 <= k < |s|
        ensures IsWhitespace(s[k])
      {
        if k < d {
          assert s[..d][k] == s[k];
        } else {
          assert t[k - d] == s[k];
        }
      }
    } else {
      var r := Trim(s);
      assert !IsWhitespace(r[0]);
      assert r[0] == t[0] == s[d];
    }
  }
}

=== FILE: store.dfy ===
/** The entity store behind the UI: insertion of newly minted records
    (newest first), status updates keyed by id, the hypothesis resolution
    with its recalibration round-trip, and the pending counts shown as badges. */
module Store {
  import opened Types
  import opened Seqs

  // ---------------------------------------------------------------------
  // Insertion

  /** A new insight goes in front; the earlier ones keep their order. */
  function AddInsight(insights: seq<Insight>, x: Insight): (r: seq<Insight>)
    ensures |r| == |insights| + 1 && r[0] == x && r[1..] == insights
    ensures PendingInsights(r) == PendingInsights(insights) + (if x.status == InsightPending then 1 else 0)
  {
    CountCons(x, insights, IsPendingInsight);
    [x] + insights
  }

  function AddOrigin(origins: seq<Origin>, x: Origin): (r: seq<Origin>)
    ensures |r| == |origins| + 1 && r[0] == x && r[1..] == origins
    ensures PendingOrigins(r) == PendingOrigins(origins) + (if x.status == OriginPending then 1 else 0)
  {
    CountCons(x, origins, IsPendingOrigin);
    [x] + origins
  }

  function AddSpeculation(specs: seq<Hypothesis>, x: Hypothesis): (r: seq<Hypothesis>)
    ensures |r| == |specs| + 1 && r[0] == x && r[1..] == specs
    ensures PendingSpeculations(r) == PendingSpeculations(specs) + (if x.status == HypothesisPending then 1 else 0)
  {
    CountCons(x, specs, IsPendingHypothesis);
    [x] + specs
  }

  // ---------------------------------------------------------------------
  // Pending counts (the sidebar badges)

  predicate IsPendingInsight(x: Insight) { x.status == InsightPending }
  predicate IsPendingOrigin(x: Origin) { x.status == OriginPending }
  predicate IsPendingHypothesis(x: Hypothesis) { x.status == HypothesisPending }

  function PendingInsights(xs: seq<Insight>): (n: nat)
    ensures n == |Indices(xs, IsPendingInsight)|
    ensures n == 0 <==> forall k :: 0 <= k < |xs| ==> xs[k].status != InsightPending
  {
    Count(xs, IsPendingInsight)
  }

  function PendingOrigins(xs: seq<Origin>): (n: nat)
    ensures n == |Indices(xs, IsPendingOrigin)|
    ensures n == 0 <==> forall k :: 0 <= k < |xs| ==> xs[k].status != OriginPending
  {
    Count(xs, IsPendingOrigin)
  }

  function PendingSpeculations(xs: seq<Hypothesis>): (n: nat)
    ensures n == |Indices(xs, IsPendingHypothesis)|
    ensures n == 0 <==> forall k :: 0 <= k < |xs| ==> xs[k].status != HypothesisPending
  {
    Count(xs, IsPendingHypothesis)
  }

  // ---------------------------------------------------------------------
  // Status updates keyed by id

  predicate HasInsight(xs: seq<Insight>, id: Id) { exists k :: 0 <= k < |xs| && xs[k].id == id }
  predicate HasOrigin(xs: seq<Origin>, id: Id) { exists k :: 0 <= k < |xs| && xs[k].id == id }
  predicate HasSpeculation(xs: seq<Hypothesis>, id: Id) { exists k :: 0 <= k < |xs| && xs[k].id == id }

  predicate UniqueSpeculationIds(xs: seq<Hypothesis>) {
    forall i, j :: 0 <= i < j < |xs| ==> xs[i].id != xs[j].id
  }

  /** Every insight with the given id takes the new status; nothing else changes.
      The caller only ever passes agreed or disagreed. */
  function UpdateInsightStatus(xs: seq<Insight>, id: Id, status: InsightStatus): (r: seq<Insight>)
    requires status != InsightPending
    ensures |r| == |xs|
    ensures forall k :: 0 <= k < |xs| ==> r[k].id == xs[k].id && InsightDraftOf(r[k]) == InsightDraftOf(xs[k])
    ensures forall k :: 0 <= k < |xs| ==> r[k].status == if xs[k].id == id then status else xs[k].status
  {
    Update(xs, (x: Insight) => x.id == id, (x: Insight) => x.(status := status))
  }

  /** Every origin with the given id takes the new status; nothing else changes.
      The caller only ever passes confirmed or rejected. */
  function UpdateOriginStatus(xs: seq<Origin>, id: Id, status: OriginStatus): (r: seq<Origin>)
    requires status != OriginPending
    ensures |r| == |xs|
    ensures forall k :: 0 <= k < |xs| ==> r[k].id == xs[k].id && OriginDraftOf(r[k]) == OriginDraftOf(xs[k])
    ensures forall k :: 0 <= k < |xs| ==> r[k].status == if xs[k].id == id then status else xs[k].status
  {
    Update(xs, (x: Origin) => x.id == id, (x: Origin) => x.(status := status))
  }

  /** The optimistic half of a resolution: the status is set on every
      hypothesis with the given id. */
  function UpdateSpeculationStatus(xs: seq<Hypothesis>, id: Id, status: HypothesisStatus): (r: seq<Hypothesis>)
    ensures |r| == |xs|
    ensures forall k :: 0 <= k < |xs| ==> r[k] == if xs[k].id == id then xs[k].(status := status) else xs[k]
  {
    Update(xs, (x: Hypothesis) => x.id == id, (x: Hypothesis) => x.(status := status))
  }

  /** An id that names no record leaves the list exactly as it was. */
  lemma UnknownIdLeavesInsights(xs: seq<Insight>, id: Id, status: InsightStatus)
    requires status != InsightPending
    requires !HasInsight(xs, id)
    ensures UpdateInsightStatus(xs, id, status) == xs
  {
    var r := UpdateInsightStatus(xs, id, status);
    forall k | 0 <= k < |xs| ensures r[k] == xs[k] {
      assert xs[k].id != id;
    }
  }

  lemma UnknownIdLeavesOrigins(xs: seq<Origin>, id: Id, status: OriginStatus)
    requires status != OriginPending
    requires !HasOrigin(xs, id)
    ensures UpdateOriginStatus(xs, id, status) == xs
  {
    var r := UpdateOriginStatus(xs, id, status);
    forall k | 0 <= k < |xs| ensures r[k] == xs[k] {
      assert xs[k].id != id;
    }
  }

  /** No pending precondition guards insight and origin updates: a second
      update overwrites the first, as if the first had never happened. */
  lemma InsightStatusOverwritable(xs: seq<Insight>, id: Id, first: InsightStatus, second: InsightStatus)
    requires first != InsightPending && second != InsightPending
    ensures UpdateInsightStatus(UpdateInsightStatus(xs, id, first), id, second) == UpdateInsightStatus(xs, id, second)
  {
    var a := UpdateInsightStatus(UpdateInsightStatus(xs, id, first), id, second);
    var b := UpdateInsightStatus(xs, id, second);
    forall k | 0 <= k < |xs| ensures a[k] == b[k] {
      if xs[k].id == id {
        assert a[k] == xs[k].(status := second);
      }
    }
  }

  lemma OriginStatusOverwritable(xs: seq<Origin>, id: Id, first: OriginStatus, second: OriginStatus)
    requires first != OriginPending && second != OriginPending
    ensures UpdateOriginStatus(UpdateOriginStatus(xs, id, first), id, second) == UpdateOriginStatus(xs, id, second)
  {
    var a := UpdateOriginStatus(UpdateOriginStatus(xs, id, first), id, second);
    var b := UpdateOriginStatus(xs, id, second);
    forall k | 0 <= k < |xs| ensures a[k] == b[k] {
      if xs[k].id == id {
        assert a[k] == xs[k].(status := second);
      }
    }
  }

  /** Resolving an insight never raises the pending badge. */
  lemma ResolvingInsightNeverRaisesBadge(xs: seq<Insight>, id: Id, status: InsightStatus)
    requires status != InsightPending
    ensures PendingInsights(UpdateInsightStatus(xs, id, status)) <= PendingInsights(xs)
  {
    UpdateNeverRaisesCount(xs, (x: Insight) => x.id == id, (x: Insight) => x.(status := status), IsPendingInsight);
  }

  lemma ResolvingOriginNeverRaisesBadge(xs: seq<Origin>, id: Id, status: OriginStatus)
    requires status != OriginPending
    ensures PendingOrigins(UpdateOriginStatus(xs, id, status)) <= PendingOrigins(xs)
  {
    UpdateNeverRaisesCount(xs, (x: Origin) => x.id == id, (x: Origin) => x.(status := status), IsPendingOrigin);
  }

  /** Resolving a hypothesis to a terminal status never raises its badge,
      whatever the recalibration does. */
  lemma ResolvingSpeculationNeverRaisesBadge(xs: seq<Hypothesis>, id: Id, status: HypothesisStatus,
                                             gateway: RecalibrationRequest -> TextReply)
    requires IsTerminal(status)
    ensures PendingSpeculations(ResolveSpeculation(xs, id, status, gateway).speculations) <= PendingSpeculations(xs)
  {
    var updated := UpdateSpeculationStatus(xs, id, status);
    UpdateNeverRaisesCount(xs, (x: Hypothesis) => x.id == id, (x: Hypothesis) => x.(status := status), IsPendingHypothesis);
    match FindSpeculation(xs, id)
    case None =>
    case Some(h) =>
      match gateway(RecalibrationFor(h, status))
      case TextFailed =>
      case TextReturned(t) =>
        UpdateKeepsCount(updated, (x: Hypothesis) => x.id == id,
                         (x: Hypothesis) => x.(adjustmentPlan := Some(PlanText(t))), IsPendingHypothesis);
  }

  /** The id names the record at `k` and no other. */
  predicate OnlyInsightAt(xs: seq<Insight>, id: Id, k: nat) {
    k < |xs| && xs[k].id == id && forall j :: 0 <= j < |xs| && j != k ==> xs[j].id != id
  }

  /** Resolving the one pending insight with a given id lowers the badge by
      exactly one. */
  lemma {:induction false} ResolvingInsightLowersBadge(xs: seq<Insight>, id: Id, status: InsightStatus, k: nat)
    requires status != InsightPending
    requires OnlyInsightAt(xs, id, k) && xs[k].status == InsightPending
    ensures PendingInsights(UpdateInsightStatus(xs, id, status)) == PendingInsights(xs) - 1
    decreases |xs|
  {
    var r := UpdateInsightStatus(xs, id, status);
    var tail := UpdateInsightStatus(xs[1..], id, status);
    assert r == [r[0]] + tail;
    assert xs == [xs[0]] + xs[1..];
    CountCons(r[0], tail, IsPendingInsight);
    CountCons(xs[0], xs[1..], IsPendingInsight);
    if k == 0 {
      assert !HasInsight(xs[1..], id) by {
        forall j | 0 <= j < |xs| - 1 ensures xs[1..][j].id != id {
          assert xs[1..][j] == xs[j + 1];
        }
      }
      UnknownIdLeavesInsights(xs[1..], id, status);
    } else {
      assert OnlyInsightAt(xs[1..], id, k - 1) by {
        forall j | 0 <= j < |xs| - 1 && j != k - 1 ensures xs[1..][j].id != id {
          assert xs[1..][j] == xs[j + 1];
        }
      }
      ResolvingInsightLowersBadge(xs[1..], id, status, k - 1);
    }
  }

  // ---------------------------------------------------------------------
  // Hypothesis resolution and recalibration

  /** The first hypothesis with the given id, looked up in the snapshot taken
      before the optimistic update (`find`). */
  function FindSpeculation(xs: seq<Hypothesis>, id: Id): (r: Option<Hypothesis>)
    ensures r.None? <==> !HasSpeculation(xs, id)
    ensures r.Some? ==> exists k :: 0 <= k < |xs| && xs[k] == r.value && r.value.id == id
                                    && forall j :: 0 <= j < k ==> xs[j].id != id
    decreases |xs|
  {
    if xs == [] then None
    else if xs[0].id == id then Some(xs[0])
    else
      var r := FindSpeculation(xs[1..], id);
      assert forall j :: 1 <= j < |xs| ==> xs[j] == xs[1..][j - 1];
      r
  }

  /** What the recalibration prompt interpolates: the primary text (whichever
      side was chosen), the new status by its wire name and the grounding
      signals joined by ", ". */
  datatype RecalibrationRequest = RecalibrationRequest(hypothesis: string, status: string, grounding: string)

  /** The gateway's answer in recalibration mode: a failure, or a reply whose
      text may be missing. */
  datatype TextReply = TextFailed | TextReturned(text: Option<string>)

  const DefaultPlan: string := "Modeling adapted."

  /** The plan attached on success: the reply text, or the default when the
      text is missing or empty (`text || "Modeling adapted."`). */
  function PlanText(text: Option<string>): (p: string)
    ensures |p| > 0
    ensures text.Some? && text.value != "" ==> p == text.value
    ensures text.None? || text.value == "" ==> p == DefaultPlan
  {
    match text
    case Some(t) => if t != "" then t else DefaultPlan
    case None => DefaultPlan
  }

  /** The request for resolving `h` to `status`: the new status can be read
      back from it, the grounding signals are joined by ", ", and the primary
      text is sent even when the competing side was confirmed. */
  function RecalibrationFor(h: Hypothesis, status: HypothesisStatus): (q: RecalibrationRequest)
    ensures ParseHypothesisStatus(q.status) == Some(status)
    ensures q.hypothesis == h.primaryHypothesis
    ensures q.grounding == Join(h.groundingSignals, ", ")
  {
    RecalibrationRequest(h.primaryHypothesis, HypothesisStatusName(status), Join(h.groundingSignals, ", "))
  }

  /** Resolutions of one hypothesis to different statuses send different
      requests; resolutions to the two confirmed sides send the same text. */
  lemma RecalibrationDistinguishesStatus(h: Hypothesis, s: HypothesisStatus, t: HypothesisStatus)
    ensures RecalibrationFor(h, s) == RecalibrationFor(h, t) <==> s == t
    ensures RecalibrationFor(h, ConfirmedPrimary).hypothesis == RecalibrationFor(h, ConfirmedCompeting).hypothesis
  {
    if RecalibrationFor(h, s) == RecalibrationFor(h, t) {
      assert ParseHypothesisStatus(RecalibrationFor(h, s).status) == Some(s);
      assert ParseHypothesisStatus(RecalibrationFor(h, t).status) == Some(t);
    }
  }

  /** Every hypothesis with the given id gets the plan; its status and all
      other fields stay as they are. */
  function AttachPlan(xs: seq<Hypothesis>, id: Id, plan: string): (r: seq<Hypothesis>)
    ensures |r| == |xs|
    ensures forall k :: 0 <= k < |xs| ==> r[k] == if xs[k].id == id then xs[k].(adjustmentPlan := Some(plan)) else xs[k]
  {
    Update(xs, (x: Hypothesis) => x.id == id, (x: Hypothesis) => x.(adjustmentPlan := Some(plan)))
  }

  datatype Resolution = Resolution(speculations: seq<Hypothesis>, request: Option<RecalibrationRequest>)

  /** A resolution as one sequential step: the status is applied first; a
      recalibration request is issued when, and only when, the id is in the
      list (whatever the new status, `rejected_all` included); on success the
      plan is attached, on failure nothing further changes. */
  function ResolveSpeculation(xs: seq<Hypothesis>, id: Id, status: HypothesisStatus,
                              gateway: RecalibrationRequest -> TextReply): (r: Resolution)
    ensures |r.speculations| == |xs|
    ensures r.request.Some? <==> HasSpeculation(xs, id)
    ensures r.request.Some? ==> r.request.value == RecalibrationFor(FindSpeculation(xs, id).value, status)
    ensures forall k :: 0 <= k < |xs| && xs[k].id != id ==> r.speculations[k] == xs[k]
    ensures forall k :: 0 <= k < |xs| && xs[k].id == id ==>
              r.speculations[k] ==
                xs[k].(status := status,
                       adjustmentPlan := match gateway(r.request.value)
                                         case TextFailed => xs[k].adjustmentPlan
                                         case TextReturned(t) => Some(PlanText(t)))
  {
    var updated := UpdateSpeculationStatus(xs, id, status);
    match FindSpeculation(xs, id)
    case None => Resolution(updated, None)
    case Some(h) =>
      var request := RecalibrationFor(h, status);
      match gateway(request)
      case TextFailed => Resolution(updated, Some(request))
      case TextReturned(t) => Resolution(AttachPlan(updated, id, PlanText(t)), Some(request))
  }

  /** A failed recalibration does not roll back the status change. */
  lemma FailedRecalibrationKeepsStatus(xs: seq<Hypothesis>, id: Id, status: HypothesisStatus)
    ensures ResolveSpeculation(xs, id, status, _ => TextFailed).speculations == UpdateSpeculationStatus(xs, id, status)
  {
  }

  /** Resolving an unknown id changes nothing and issues no request. */
  lemma UnknownIdResolutionIsNoop(xs: seq<Hypothesis>, id: Id, status: HypothesisStatus,
                                  gateway: RecalibrationRequest -> TextReply)
    requires !HasSpeculation(xs, id)
    ensures ResolveSpeculation(xs, id, status, gateway) == Resolution(xs, None)
  {
    var r := ResolveSpeculation(xs, id, status, gateway);
    forall k | 0 <= k < |xs| ensures r.speculations[k] == xs[k] {
      assert xs[k].id != id;
    }
  }

  /** Rejecting both sides of a known hypothesis still issues a
      recalibration request, and a successful reply still attaches a plan. */
  lemma RejectionStillRecalibrates(xs: seq<Hypothesis>, k: nat, reply: string)
    requires k < |xs|
    ensures var r := ResolveSpeculation(xs, xs[k].id, RejectedAll, _ => TextReturned(Some(reply)));
            && r.request.Some? && r.request.value.status == "rejected_all"
            && r.speculations[k].status == RejectedAll
            && r.speculations[k].adjustmentPlan == Some(PlanText(Some(reply)))
  {
    var h := FindSpeculation(xs, xs[k].id).value;
    assert RecalibrationFor(h, RejectedAll).status == HypothesisStatusName(RejectedAll);
  }
}

=== FILE: types.dfy ===
/** The enumerations and record shapes shared by every part of the session:
    classified turns and the three kinds of derived records (insights,
    origins, speculative hypotheses), each with its own status lifecycle. */
module Types {

  datatype Option<+T> = None | Some(value: T)

  /** Record and message ids. The source mints them from the clock; here the
      caller supplies them. */
  type Id = string

  /** Depth tag on a model-authored turn. */
  datatype Classification = Trivial | Shallow | Meaningful | Identity

  datatype Role = User | Model

  /** The wire name of a role, as it appears in the synthesis transcript. */
  function RoleName(r: Role): (s: string)
    ensures |s| > 0 && '\n' !in s
    ensures s == "user" <==> r == User
  {
    match r
    case User => "user"
    case Model => "model"
  }

  datatype Message = Message(
    id: Id,
    role: Role,
    content: string,
    classification: Option<Classification>,
    timestamp: int)

  datatype InsightStatus = InsightPending | Agreed | Disagreed

  /** The fields of an insight that the gateway produces; id and status are
      assigned locally. */
  datatype InsightDraft = InsightDraft(
    pattern: string,
    causes: seq<string>,
    shape: string,
    contradictions: string,
    futurePrediction: string,
    confidence: real,
    evidence: seq<string>)

  datatype Insight = Insight(
    id: Id,
    pattern: string,
    causes: seq<string>,
    shape: string,
    contradictions: string,
    futurePrediction: string,
    confidence: real,
    evidence: seq<string>,
    status: InsightStatus)

  datatype OriginStatus = OriginPending | Confirmed | Rejected

  datatype OriginDraft = OriginDraft(
    inference: string,
    experiences: seq<string>,
    reasoning: string,
    confidence: real)

  datatype Origin = Origin(
    id: Id,
    inference: string,
    experiences: seq<string>,
    reasoning: string,
    confidence: real,
    status: OriginStatus)

  datatype ShockLevel = Low | Medium | High

  datatype HypothesisStatus = HypothesisPending | ConfirmedPrimary | ConfirmedCompeting | RejectedAll

  /** A status a hypothesis reaches by resolution. */
  predicate IsTerminal(s: HypothesisStatus) {
    s != HypothesisPending
  }

  /** A status that makes the hypothesis part of the confirmed memo. */
  predicate IsConfirmed(s: HypothesisStatus) {
    s == ConfirmedPrimary || s == ConfirmedCompeting
  }

  /** The wire name of a hypothesis status, as sent in the recalibration request. */
  function HypothesisStatusName(s: HypothesisStatus): (n: string)
    ensures ParseHypothesisStatus(n) == Some(s)
  {
    match s
    case HypothesisPending => "pending"
    case ConfirmedPrimary => "confirmed_primary"
    case ConfirmedCompeting => "confirmed_competing"
    case RejectedAll => "rejected_all"
  }

  /** Reads a status back from its wire name; anything else is not a status. */
  function ParseHypothesisStatus(n: string): (r: Option<HypothesisStatus>)
  {
    if n == "pending" then Some(HypothesisPending)
    else if n == "confirmed_primary" then Some(ConfirmedPrimary)
    else if n == "confirmed_competing" then Some(ConfirmedCompeting)
    else if n == "rejected_all" then Some(RejectedAll)
    else None
  }

  datatype HypothesisDraft = HypothesisDraft(
    primaryHypothesis: string,
    competingHypothesis: string,
    groundingSignals: seq<string>,
    mechanismExplanation: string,
    shockLevel: ShockLevel)

  datatype Hypothesis = Hypothesis(
    id: Id,
    primaryHypothesis: string,
    competingHypothesis: string,
    groundingSignals: seq<string>,
    mechanismExplanation: string,
    shockLevel: ShockLevel,
    status: HypothesisStatus,
    adjustmentPlan: Option<string>,
    timestamp: int)

  /** The gateway-produced part of a minted record, recovered from it. */
  function InsightDraftOf(x: Insight): InsightDraft {
    InsightDraft(x.pattern, x.causes, x.shape, x.contradictions, x.futurePrediction, x.confidence, x.evidence)
  }

  function OriginDraftOf(x: Origin): OriginDraft {
    OriginDraft(x.inference, x.experiences, x.reasoning, x.confidence)
  }

  function HypothesisDraftOf(x: Hypothesis): HypothesisDraft {
    HypothesisDraft(x.primaryHypothesis, x.competingHypothesis, x.groundingSignals, x.mechanismExplanation, x.shockLevel)
  }

  /** A newly minted record: the draft's fields, a fresh id and status pending. */
  function MintInsight(d: InsightDraft, id: Id): (x: Insight)
    ensures x.id == id && x.status == InsightPending
    ensures InsightDraftOf(x) == d
  {
    Insight(id, d.pattern, d.causes, d.shape, d.contradictions, d.futurePrediction, d.confidence, d.evidence, InsightPending)
  }

  function MintOrigin(d: OriginDraft, id: Id): (x: Origin)
    ensures x.id == id && x.status == OriginPending
    ensures OriginDraftOf(x) == d
  {
    Origin(id, d.inference, d.experiences, d.reasoning, d.confidence, OriginPending)
  }

  /** A minted hypothesis starts pending and without an adjustment plan. */
  function MintHypothesis(d: HypothesisDraft, id: Id, now: int): (x: Hypothesis)
    ensures x.id == id && x.timestamp == now
    ensures x.status == HypothesisPending && x.adjustmentPlan == None
    ensures HypothesisDraftOf(x) == d
  {
    Hypothesis(id, d.primaryHypothesis, d.competingHypothesis, d.groundingSignals, d.mechanismExplanation,
               d.shockLevel, HypothesisPending, None, now)
  }
}
